=== FILE: README.md ===
# channel_sim driver: argument checks, mode dispatch and output directory

`channel_sim.py` is the command-line driver of the PyWiCh wireless-channel
simulator. It reads its options, fills in a default mobile-station trajectory,
checks that the station counts and lengths agree, and gives the run name a
`_NNNN` counter. It then finds an output directory that does not exist yet by
raising that counter, creates it, and picks the 3GPP scenario variant from the
`--mode` token. Finally it packs the station data and hands everything to the
channel library.

This project models the decisions the script makes itself:

- `outcomes.dfy`: the `Option` and `Result` types.
- `text.dfy`: the Python string operations the script relies on:
  - `str.split` and `str.join` on one character;
  - `str.strip()` over Python's whitespace set;
  - ASCII `str.lower()`;
  - `int()` on a path segment;
  - the `{n:04d}` format.
- `positions.dfy`: the argument types `position_handle` and
  `position_sequence_handle`. The float conversion itself is a parameter.
- `command_line.dfy`: the checks at the end of `parse_args`.
  - As pure functions: `ValidateStations` and `NormalizeName`.
  - As the `Args` record updated in place: `Args.Finish`, with the loop over
    the stations in `Args.FindMismatch`.
- `scenario.dfy`: the case-insensitive mode dispatch of `setup_scenario`.
- `output_dir.dfy`: the output-directory resolver of `main`.
  - The file system is a `FileSystem` object whose `existing` field is the
    set of paths that exist.
  - `FileSystem.FirstFree` is the counter loop.
  - `FileSystem.Resolve` adds the directory that `os.makedirs` creates.
- `driver.dfy`: the order of these steps in `main(parse_args())`, as
  `Driver.Run`. It also holds the packing of the station arrays and the one
  defect found in the output path (see Findings).

Behaviour worth knowing, all of it stated in the contracts:

- Without `--pms` only a single station is allowed. It gets the trajectory
  `(10,10,2) -> (20,10,2)` and, unless `--tms` is given, the timing `[0, 0.01]`.
- All count and length checks are skipped when `Nms <= 0`.
- A name with no `_` gets `_0000` appended; any other name is kept as it is.
- The resolver reads the counter after the last `_` of the joined path.
  - A counter that `int()` rejects (e.g. `my_run`) is an error.
  - A directory that does not exist is used verbatim, without re-padding.
  - Otherwise the counter is raised until a free path is found. Only the part
    after the last `_` is replaced, by the zero-padded number.
- An unknown mode is detected only after the output directory has been created.

## Model

| member | source | states |
|---|---|---|
| Text.Split | channel_sim.py:70 | `str.split` on one character never yields an empty list, and no part contains the separator |
| Text.Join | channel_sim.py:158 | `'_'.join(...)`; specified by `Text.JoinSplit`, `Text.SplitJoin` and `Text.ReplaceLastPart` |
| Text.JoinSplit | channel_sim.py:158 | joining the parts of a split gives back the original string |
| Text.SplitJoin | channel_sim.py:158 | splitting a join of separator-free parts gives back the parts |
| Text.SplitCount | channel_sim.py:18-20 | a split has exactly one part more than the string has separators |
| Text.SplitPartSlice | channel_sim.py:18-20 | part `i` of a split is the slice of the input that starts at the beginning or just after a separator and ends at the end or just before one; exactly `i` separators come before it, so only the first part starts at 0 |
| Text.SplitSegment | channel_sim.py:18-20 | part `i` of a split is `s[lo..hi]`, where exactly `i` separators come before `lo`, a separator or the start of `s` is just before it and a separator or the end of `s` is at `hi` |
| Text.SplitSingle | channel_sim.py:70 | a string splits into a single part if and only if it has no separator |
| Text.ReplaceLastPart | channel_sim.py:158 | replacing the last `_` part keeps every earlier part and ends with the new part |
| Text.Strip | channel_sim.py:18-20 | `strip()` is no longer than its input and has no whitespace at either end |
| Text.StripSlice | channel_sim.py:18-20 | `strip()` is a contiguous slice of its input, and everything cut off on either side is whitespace |
| Text.StripKeeps | channel_sim.py:18-20 | a string with no whitespace at either end is kept unchanged |
| Text.Format | channel_sim.py:158 | `{n:04d}` has at least four characters; digits only for `n >= 0`, a minus and digits for `n < 0`; never a `_`; when it is longer than four characters there is no padding zero (the first digit is not `0`) |
| Text.ParseInt | channel_sim.py:152 | `int()` in base 10 on a path segment; specified by `Text.ParseDigits`, `Text.ParsePositive`, `Text.ParseNegative`, `Text.ParseStrip` and `Text.FormatRoundTrip` (accepted forms) and by `Text.ParseBlank`, `Text.ParseRejects`, `Text.ParseRejectsInnerSign` and `Text.ParseRejectsInfoSeparator` (rejected forms) |
| Text.ParseStrip | channel_sim.py:152 | without U+001C to U+001F in the segment, `int()` ignores the whitespace around the number: it reads the segment as it reads its `strip()` |
| Text.ParseRejectsInfoSeparator | channel_sim.py:152 | `int()` rejects a segment holding any of U+001C to U+001F, which `str.isspace()` accepts but `int()` does not skip |
| Text.ParseBlank | channel_sim.py:152 | `int()` rejects an empty or all-whitespace segment |
| Text.ParseRejects | channel_sim.py:152 | `int()` rejects a segment holding any character that is not a digit, a sign or whitespace |
| Text.ParseRejectsInnerSign | channel_sim.py:152 | `int()` rejects a segment with a sign after some other non-whitespace character |
| Text.ParseDigits | channel_sim.py:152 | `int()` of a nonempty digit string is its decimal value, leading zeros allowed |
| Text.ParsePositive | channel_sim.py:152 | `int()` of a plus followed by digits of value `v` is `v` |
| Text.ParseNegative | channel_sim.py:152 | `int()` of a minus followed by digits of value `v` is `-v` |
| Text.FormatRoundTrip | channel_sim.py:152-158 | `int(f"{n:04d}") == n` for every integer `n`, negative ones included |
| Text.FormatInjective | channel_sim.py:158 | distinct counter values format to distinct strings |
| Positions.Fields | channel_sim.py:18-20 | there is one field more than the text has separators, and no field has whitespace at either end |
| Positions.FieldSegment | channel_sim.py:18-20 | field `i` is the `strip()` of the separator-free text between the `i`-th and the next separator (or an end of the value): exactly `i` separators precede it, so the fields keep the order of the text |
| Positions.ConvertAll | channel_sim.py:20 | a comprehension succeeds iff every item converts, with the values in order; otherwise the error is that of the first item that fails |
| Positions.Floats | channel_sim.py:18 | `[float(t) ...]`, as a `ConvertAll`, succeeds iff every token converts, with the values in order; otherwise it names the first token that fails |
| Positions.PositionHandle | channel_sim.py:17-18 | one number per comma-separated stripped token, in order; a failure names a token of the input that does not convert |
| Positions.PositionSequenceHandle | channel_sim.py:19-20 | one position per colon-separated stripped group, each parsed by `position_handle`; a failure is a token that does not convert |
| Positions.PositionArity | channel_sim.py:17-18 | a parsed position has one coordinate more than its text has commas |
| Positions.SequenceLength | channel_sim.py:19-20 | a parsed sequence has one position more than its text has colons |
| CommandLine.FirstMismatch | channel_sim.py:67-68 | the first index in `zip` order whose trajectory and timing lengths differ; all earlier ones agree; none means every zipped pair agrees |
| CommandLine.ApplyDefaults | channel_sim.py:58-62 | the defaulting step; specified by `CommandLine.ValidateStations` |
| CommandLine.CheckCounts | channel_sim.py:64-68 | the count and length checks; specified by `CommandLine.ValidateStations` |
| CommandLine.ValidateStations | channel_sim.py:58-68 | covers, as separate contracts: without `--pms`, acceptance iff `Nms == 1` (plus the timing check), with the defaults filled in, and `PathsOmitted` otherwise; with `--pms` and `Nms > 0`, acceptance iff there are exactly `Nms` trajectories and timings of pairwise equal lengths; an accepted `--pms` is returned unchanged; a wrong trajectory count, missing timings, a wrong timing count and a per-station mismatch each give their own error, in that order; `Nms <= 0` skips every check; without `--pms`, a `--tms` with other than one timing gives `TimingCountMismatch` and a single timing of other than two entries gives a mismatch at station 0; a length mismatch names the first offending station with both lengths |
| CommandLine.NormalizeName | channel_sim.py:70-71 | `_0000` is appended iff the name has no `_`; otherwise the name is kept; the result always has a `_` |
| CommandLine.NormalizeIdempotent | channel_sim.py:70-71 | normalising twice equals normalising once |
| CommandLine.Args.FindMismatch | channel_sim.py:67-68 | the `enumerate(zip(...))` loop returns exactly `FirstMismatch` |
| CommandLine.Args.Finish | channel_sim.py:58-71 | the in-place updates of `parse_args`: the failure equals `ValidateStations`'s error; on success the fields hold the validated stations and the normalised name; on failure the name is untouched and the defaults written so far stay |
| Text.Lower | channel_sim.py:96 | `lower()` keeps the length; specified by `Text.LowerSpec` |
| Text.LowerSpec | channel_sim.py:96 | `lower()` leaves no ASCII capital, maps each capital to its small letter and keeps every other character |
| Text.LowerIdempotent | channel_sim.py:96 | lower-casing twice is lower-casing once |
| Scenario.LowerChoices | channel_sim.py:96-101 | the lower-cased choices are `isp`, `umi` and `uma` |
| Scenario.Dispatch | channel_sim.py:96-103 | a chosen variant's choice equals the token up to case; a refusal is `UnknownMode` with the token as given |
| Scenario.DispatchChoice | channel_sim.py:96-103 | for each variant, the token selects it iff the token equals its choice up to case |
| Scenario.DispatchSpec | channel_sim.py:96-103 | a token selects a variant iff it equals that variant's choice up to ASCII case; it is refused iff it matches none; a refusal carries the original token |
| Scenario.ChoiceRoundTrip | channel_sim.py:50 | each argparse choice dispatches to its own variant |
| Scenario.CaseInsensitive | channel_sim.py:96-103 | tokens equal up to case dispatch alike |
| OutputDir.JoinPath | channel_sim.py:151 | `os.path.join` ends with the name; an absolute name replaces the base; a relative name is placed under the base, which is kept as a prefix, with one `/` inserted unless the base is empty or already ends with `/` |
| OutputDir.SuffixNumber | channel_sim.py:152 | `int(target_dir.split("_")[-1])`; specified by `OutputDir.CandidateNumber`, `OutputDir.RenumberedParts` and `OutputDir.FileSystem.FirstFree` |
| OutputDir.Renumbered | channel_sim.py:158 | the rebuilt path of line 158; specified by `OutputDir.RenumberedParts`, `OutputDir.CounterPath` and `OutputDir.RenumberTwice` |
| OutputDir.RenumberedParts | channel_sim.py:158 | renumbering keeps every part before the last `_`; the last part becomes the formatted number, which `int()` reads back |
| OutputDir.CounterPath | channel_sim.py:152-158 | for `prefix_counter`, the counter read is the text after the last `_`, and renumbering gives `prefix_` plus at least four zero-padded digits with value `n` |
| OutputDir.RenumberTwice | channel_sim.py:158 | renumbering a renumbered path equals renumbering the original, so the prefix never drifts across iterations |
| OutputDir.CandidateNumber | channel_sim.py:152-158 | every candidate from the initial counter on reads back its own counter value |
| OutputDir.CandidatesDistinct | channel_sim.py:156-159 | different counter values give different candidate paths |
| OutputDir.CandidateStep | channel_sim.py:157-158 | one loop iteration turns candidate `n` into candidate `n + 1` |
| OutputDir.FirstFreeUnique | channel_sim.py:154-159 | at most one slot is the first free one |
| OutputDir.AllTakenStep | channel_sim.py:156-159 | a candidate found to exist extends the run of existing candidates |
| OutputDir.TakenBound | channel_sim.py:156-159 | the counter cannot move more than the number of existing paths past its start, so the loop terminates |
| OutputDir.ScanStep | channel_sim.py:156-159 | one iteration keeps the loop invariant and the termination bound |
| OutputDir.Ancestors | channel_sim.py:164 | the extra directories `os.makedirs` creates are exactly the proper prefixes of the path that end just before a `/` |
| OutputDir.FileSystem.FirstFree | channel_sim.py:151-161 | the loop fails iff `int()` rejects the last `_` part, naming that part; otherwise it returns the candidate with the least counter value, from the target's own, that does not exist, and every earlier candidate exists |
| OutputDir.FileSystem.Resolve | channel_sim.py:151-164 | same choice as `FirstFree`; on success the file system grows by the chosen directory and its missing parents and nothing else; on failure nothing changes |
| OutputDir.ResolvedIsFresh | channel_sim.py:163-164 | when the parents exist, the file system grows by exactly one new path |
| OutputDir.TakenTargetGoesToNext | channel_sim.py:154-159 | if only `prefix_NNNN` exists, the counter `NNNN + 1` is chosen |
| OutputDir.WordSuffixRejected | channel_sim.py:152 | for a name such as `my_run` the text after the last `_` is not a number, so the resolver has no counter |
| OutputDir.UnusedTargetKept | channel_sim.py:152-154 | a target that does not exist is chosen verbatim with its own counter |
| Driver.Pack | channel_sim.py:127-131 | packing succeeds iff `Nms >= 0`, timings exist and the zipped stations fit in `Nms` slots; it then keeps the trajectories and timings as given |
| Driver.ValidatedStationsPack | channel_sim.py:64-68 | stations accepted with `Nms > 0` always pack |
| Driver.SkippedChecksNeverPack | channel_sim.py:64-68 | stations accepted only because `Nms <= 0` skipped the checks never pack |
| Driver.SimulationPathAsWritten | channel_sim.py:133 | the output path as written; specified by `Driver.AsWrittenMissesResolved` and `Driver.AsWrittenCounterexample` |
| Driver.AsWrittenMissesResolved | channel_sim.py:133 | as written, when the requested directory exists, the library's output path is that old directory, never the one just created |
| Driver.JoinCounter | channel_sim.py:133 | joining a relative `stem_counter` keeps `_counter` at the end of the path |
| Driver.TakenRequestGoesToNext | channel_sim.py:151-159 | under any base path, an existing, only `stem_NNNN` resolves to `stem_(NNNN+1)` |
| Driver.AsWrittenCounterexample | channel_sim.py:133 | for `--name run` with `run_0000` existing: the name normalises to `run_0000`, the resolver picks `run_0001`, yet the as-written output path is `run_0000` |
| Driver.Run | channel_sim.py:58-172 | the run in the script's order: on valid stations the argument record holds the normalised name and the defaulted `pms` and `tms`, and on a station error the name is untouched; a station error stops it before any directory exists; a bad counter stops it with the file system unchanged; a directory is created iff the stations are valid and the counter reads; once it is, an unknown mode always fails naming the token, a packing error always fails with that error, and otherwise the run always succeeds, giving the library the dispatched variant, the packed stations and the newly created directory |

## Left out

- The channel library (antennas, scenario constructors, frequency band, fading, `compute_path`, the `save` calls) is foreign code. `Driver.Launch` records only what it would be given.
- `float()` is a parameter (`toFloat`) of `Positions`. Python's float syntax and floating-point rounding are not modelled.
- argparse mechanics are not modelled: option parsing, type hooks, `action='append'`, defaults and help text. The `--mode` choices restriction is also out, so `Scenario.Dispatch` keeps the unknown-mode branch that argparse would make unreachable.
- Positions.PositionSequenceHandle: on failure it states only that the returned token does not convert. It does not say which group the token came from.
- Every `print` is left out. This includes the printed arguments and the "Simulation path" message.
- Python's `-O` flag, which disables the `assert` checks, is not modelled. The checks always run.
- `int()` is modelled only for ASCII digits, skipping Python's whitespace set except U+001C to U+001F. Non-ASCII decimal digits are not accepted. Digit-group underscores cannot occur, since the text comes from a split on `_`.
- `lower()` is modelled for ASCII letters only.
- Paths are compared as strings. `..`, repeated `/`, trailing `/`, symbolic links and case-insensitive file systems are not modelled. `os.path.exists` is true for any path in the set, files included.
- The race between the existence check and `os.makedirs(..., exist_ok=False)` is not modelled, nor is any other concurrent change to the file system.
- OutputDir.FileSystem.Resolve: creating the directory never fails in the model. `os.makedirs` can raise, for example on a permission error or when a parent path exists as a file.
- Driver.Pack: `np.array(pos)` at line 130 is not modelled. Under current numpy it raises on ragged waypoint lists. For example, `--pms 1,2,3:4,5` with a two-entry `--tms` passes validation and then fails there, while `Pack` succeeds.
- Numpy's object arrays are not modelled. `Driver.Pack` returns the sequences that would fill them.

## Findings

| source | as written | input that shows it | evidently intended | confidence | as-written member | corrected member |
|---|---|---|---|---|---|---|
| channel_sim.py:133 | `simulation_path = os.path.join(args.path, args.name)` passes the requested directory to the library and to every `save` | `--name run`, with `<path>/run_0000` already present. The resolver creates `<path>/run_0001`, but the results go into `<path>/run_0000` | the library writes into `target_dir`, the fresh directory resolved and created at lines 151-164 | not executed | Driver.AsWrittenCounterexample | Driver.Run |

=== FILE: command_line.dfy ===
/**
 * What `parse_args` does after argparse has produced its record
 * (channel_sim.py:58-71): default the mobile-station trajectory, check the
 * station counts and lengths, and make sure the run name carries a `_` suffix.
 * Each failed `assert` of the script is a `StationError`.
 */
module CommandLine {
  import opened Outcomes
  import opened Text

  /** One position: the numbers of one `x,y,z` token group. */
  type Waypoint = seq<real>
  /** One `--pms` occurrence: a station's waypoints in order. */
  type Trajectory = seq<Waypoint>
  /** One `--tms` occurrence: a station's timestamps in order. */
  type Timing = seq<real>

  const DefaultTrajectory: Trajectory := [[10.0, 10.0, 2.0], [20.0, 10.0, 2.0]]
  const DefaultTiming: Timing := [0.0, 0.01]
  const DefaultSuffix: string := "_0000"

  datatype StationError =
    | PathsOmitted(nms: int)                          // no --pms with Nms != 1
    | PathCountMismatch(paths: nat, nms: int)         // len(pms) != Nms
    | TimingsOmitted                                  // len(None): --pms given, --tms not
    | TimingCountMismatch(timings: nat, nms: int)     // len(tms) != Nms
    | StationLengthMismatch(index: nat, positions: nat, timings: nat)

  /** The mobile-station data once the defaults are in place. */
  datatype Stations = Stations(pms: seq<Trajectory>, tms: Option<seq<Timing>>)

  /**
   * The index of the first station, in `zip(pms, tms)` order, whose waypoint
   * count differs from its timestamp count.
   */
  function FirstMismatch(pms: seq<Trajectory>, tms: seq<Timing>): (r: Option<nat>)
    ensures r.Some? ==> r.value < |pms| && r.value < |tms| && |pms[r.value]| != |tms[r.value]|
    ensures r.Some? ==> forall j :: 0 <= j < r.value ==> |pms[j]| == |tms[j]|
    ensures r.None? ==> forall j :: 0 <= j < |pms| && j < |tms| ==> |pms[j]| == |tms[j]|
  {
    if |pms| == 0 || |tms| == 0 then None
    else if |pms[0]| != |tms[0]| then Some(0)
    else match FirstMismatch(pms[1..], tms[1..])
      case None => None
      case Some(i) => Some(i + 1)
  }

  /** channel_sim.py:58-62: without `--pms`, only a single station gets the default trajectory. */
  function ApplyDefaults(nms: int, pms: Option<seq<Trajectory>>, tms: Option<seq<Timing>>): Result<Stations, StationError>
  {
    if pms.Some? then Ok(Stations(pms.value, tms))
    else if nms != 1 then Err(PathsOmitted(nms))
    else Ok(Stations([DefaultTrajectory], if tms.None? then Some([DefaultTiming]) else tms))
  }

  /** channel_sim.py:64-68: the count checks, made only when `Nms > 0`. */
  function CheckCounts(nms: int, st: Stations): Option<StationError>
  {
    if nms <= 0 then None
    else if |st.pms| != nms then Some(PathCountMismatch(|st.pms|, nms))
    else if st.tms.None? then Some(TimingsOmitted)
    else if |st.tms.value| != nms then Some(TimingCountMismatch(|st.tms.value|, nms))
    else match FirstMismatch(st.pms, st.tms.value)
      case Some(i) => Some(StationLengthMismatch(i, |st.pms[i]|, |st.tms.value[i]|))
      case None => None
  }

  /**
   * The whole mobile-station validation: an accepted configuration with
   * `Nms > 0` has exactly `Nms` trajectories and timings of matching
   * lengths, and every such configuration is accepted unchanged; a
   * per-station mismatch names the first offending station.
   */
  function ValidateStations(nms: int, pms: Option<seq<Trajectory>>, tms: Option<seq<Timing>>): (r: Result<Stations, StationError>)
    ensures pms.None? ==> (r.Ok? <==> nms == 1 && (tms.None? || (|tms.value| == 1 && |tms.value[0]| == 2)))
    ensures pms.None? && r.Ok? ==>
              r.value == Stations([DefaultTrajectory], Some(if tms.None? then [DefaultTiming] else tms.value))
    ensures nms > 0 && r.Ok? ==>
              |r.value.pms| == nms && r.value.tms.Some? && |r.value.tms.value| == nms &&
              forall i :: 0 <= i < nms ==> |r.value.pms[i]| == |r.value.tms.value[i]|
    ensures nms > 0 && pms.Some? && tms.Some? && |pms.value| == nms && |tms.value| == nms &&
            (forall i :: 0 <= i < nms ==> |pms.value[i]| == |tms.value[i]|) ==>
              r == Ok(Stations(pms.value, tms))
    ensures nms <= 0 && pms.Some? ==> r == Ok(Stations(pms.value, tms))
    ensures pms.None? && nms != 1 ==> r == Err(PathsOmitted(nms))
    ensures pms.None? && nms == 1 && tms.Some? && |tms.value| != 1 ==> r == Err(TimingCountMismatch(|tms.value|, 1))
    ensures pms.None? && nms == 1 && tms.Some? && |tms.value| == 1 && |tms.value[0]| != 2 ==>
              r == Err(StationLengthMismatch(0, 2, |tms.value[0]|))
    ensures pms.Some? && r.Ok? ==> r.value == Stations(pms.value, tms)
    ensures nms > 0 && pms.Some? ==>
              (r.Ok? <==> tms.Some? && |pms.value| == nms && |tms.value| == nms &&
                          forall i :: 0 <= i < nms ==> |pms.value[i]| == |tms.value[i]|)
    ensures nms > 0 && pms.Some? && |pms.value| != nms ==> r == Err(PathCountMismatch(|pms.value|, nms))
    ensures nms > 0 && pms.Some? && |pms.value| == nms && tms.None? ==> r == Err(TimingsOmitted)
    ensures nms > 0 && pms.Some? && |pms.value| == nms && tms.Some? && |tms.value| != nms ==>
              r == Err(TimingCountMismatch(|tms.value|, nms))
    ensures nms > 0 && pms.Some? && tms.Some? && |pms.value| == nms && |tms.value| == nms &&
            (exists i :: 0 <= i < nms && |pms.value[i]| != |tms.value[i]|) ==>
              r.Err? && r.error.StationLengthMismatch?
    ensures r.Err? && r.error.StationLengthMismatch? ==>
              var d := ApplyDefaults(nms, pms, tms);
              var i := r.error.index;
              d.Ok? && d.value.tms.Some? && i < nms && i < |d.value.pms| && i < |d.value.tms.value| &&
              r.error.positions == |d.value.pms[i]| != r.error.timings == |d.value.tms.value[i]| &&
              forall j :: 0 <= j < i ==> |d.value.pms[j]| == |d.value.tms.value[j]|
  {
    match ApplyDefaults(nms, pms, tms)
    case Err(e) => Err(e)
    case Ok(st) =>
      match CheckCounts(nms, st)
      case Some(e) => Err(e)
      case None => Ok(st)
  }

  /**
   * channel_sim.py:70-71: a name that `split("_")` leaves in one piece gets the
   * suffix `_0000`; any other name is kept.
   */
  function NormalizeName(name: string): (r: string)
    ensures '_' !in name ==> r == name + DefaultSuffix
    ensures '_' in name ==> r == name
    ensures '_' in r
  {
    SplitSingle(name, '_');
    if |Split(name, '_')| == 1 then
      var r := name + DefaultSuffix;
      assert r[|name|] == '_';
      r
    else name
  }

  /** Normalising a name twice is the same as normalising it once. */
  lemma NormalizeIdempotent(name: string)
    ensures NormalizeName(NormalizeName(name)) == NormalizeName(name)
  {
  }

  /** The argparse result record; `parse_args` updates `pms`, `tms` and `name` in place. */
  class Args {
    const nms: int
    var pms: Option<seq<Trajectory>>
    var tms: Option<seq<Timing>>
    const path: string
    var name: string
    const mode: string

    constructor (nms: int, pms: Option<seq<Trajectory>>, tms: Option<seq<Timing>>,
                 path: string, name: string, mode: string)
      ensures this.nms == nms && this.pms == pms && this.tms == tms
      ensures this.path == path && this.name == name && this.mode == mode
    {
      this.nms, this.pms, this.tms := nms, pms, tms;
      this.path, this.name, this.mode := path, name, mode;
    }

    /**
     * The scan `for idx,(p,t) in enumerate(zip(pms, tms))` of
     * channel_sim.py:67-68: the first station whose lengths differ, if any.
     */
    static method FindMismatch(pms: seq<Trajectory>, tms: seq<Timing>) returns (r: Option<nat>)
      ensures r == FirstMismatch(pms, tms)
    {
      var n := if |pms| < |tms| then |pms| else |tms|;
      for idx := 0 to n
        invariant forall j :: 0 <= j < idx ==> |pms[j]| == |tms[j]|
      {
        if |pms[idx]| != |tms[idx]| {
          return Some(idx);
        }
      }
      return None;
    }

    /**
     * channel_sim.py:58-71, step by step. On success the fields hold the
     * validated stations and the normalised name; on a failed check the
     * defaults already written stay, and the name is untouched.
     */
    method Finish() returns (failure: Option<StationError>)
      modifies this
      ensures var v := ValidateStations(nms, old(pms), old(tms));
              failure == (if v.Ok? then None else Some(v.error))
      ensures var v := ValidateStations(nms, old(pms), old(tms));
              v.Ok? ==> pms == Some(v.value.pms) && tms == v.value.tms && name == NormalizeName(old(name))
      ensures var d := ApplyDefaults(nms, old(pms), old(tms));
              failure.Some? ==> name == old(name) &&
                                (d.Ok? ==> pms == Some(d.value.pms) && tms == d.value.tms) &&
                                (d.Err? ==> pms == old(pms) && tms == old(tms))
    {
      if pms.None? {
        if nms != 1 {
          return Some(PathsOmitted(nms));
        }
        pms := Some([DefaultTrajectory]);
        if tms.None? {
          tms := Some([DefaultTiming]);
        }
      }
      if nms > 0 {
        if |pms.value| != nms {
          return Some(PathCountMismatch(|pms.value|, nms));
        }
        if tms.None? {
          return Some(TimingsOmitted);
        }
        if |tms.value| != nms {
          return Some(TimingCountMismatch(|tms.value|, nms));
        }
        var idx := FindMismatch(pms.value, tms.value);
        if idx.Some? {
          return Some(StationLengthMismatch(idx.value, |pms.value[idx.value]|, |tms.value[idx.value]|));
        }
      }
      SplitSingle(name, '_');
      if |Split(name, '_')| == 1 {
        name := name + DefaultSuffix;
      }
      return None;
    }
  }
}

=== FILE: driver.dfy ===
/**
 * The order of events in `main(parse_args())` (channel_sim.py:58-172) as far
 * as the script itself decides it: validate the arguments, resolve and create
 * the output directory, pick the scenario variant, pack the station data,
 * and hand the library one output path. The library calls are not modelled;
 * `Launch` records what they are given.
 */
module Driver {
  import opened Outcomes
  import opened Text
  import opened CommandLine
  import opened Scenario
  import opened OutputDir

  datatype PackError =
    | NegativeDimension(nms: int)        // np.empty(shape=(Nms,)) with Nms < 0
    | TimingsMissing                     // zip(pms, None)
    | TooManyStations(stations: nat)     // positions[idx] past the Nms slots

  datatype Failure =
    | StationFailure(station: StationError)
    | SuffixFailure(suffix: ResolveError)
    | ModeFailure(mode: ModeError)
    | PackFailure(pack: PackError)

  /** What the library receives: the output directory, the scenario variant and the station data. */
  datatype Launch = Launch(output: Slot, variant: Variant, pms: seq<Trajectory>, tms: seq<Timing>)

  /**
   * channel_sim.py:127-131: `np.empty(shape=(Nms,))` twice, then one slot
   * filled per pair of `zip(pms, tms)`.
   */
  function Pack(nms: int, st: Stations): (r: Result<(seq<Trajectory>, seq<Timing>), PackError>)
    ensures r.Ok? ==> st.tms.Some? && r.value == (st.pms, st.tms.value)
    ensures r.Ok? <==> nms >= 0 && st.tms.Some? &&
                       (|st.pms| <= nms || |st.tms.value| <= nms)
  {
    if nms < 0 then Err(NegativeDimension(nms))
    else if st.tms.None? then Err(TimingsMissing)
    else
      var zipped := if |st.pms| < |st.tms.value| then |st.pms| else |st.tms.value|;
      if zipped > nms then Err(TooManyStations(zipped))
      else Ok((st.pms, st.tms.value))
  }

  /** Stations that passed validation with `Nms > 0` always pack. */
  lemma ValidatedStationsPack(nms: int, pms: Option<seq<Trajectory>>, tms: Option<seq<Timing>>)
    requires nms > 0 && ValidateStations(nms, pms, tms).Ok?
    ensures Pack(nms, ValidateStations(nms, pms, tms).value).Ok?
  {
  }

  /**
   * Stations that passed validation only because `Nms <= 0` skipped the
   * checks never pack: `--pms` is given at least once, so a zero-sized
   * array has no room for it.
   */
  lemma SkippedChecksNeverPack(nms: int, pms: Option<seq<Trajectory>>, tms: Option<seq<Timing>>)
    requires nms <= 0 && pms.Some? && |pms.value| >= 1
    requires tms.Some? ==> |tms.value| >= 1
    ensures ValidateStations(nms, pms, tms).Ok?
    ensures Pack(nms, ValidateStations(nms, pms, tms).value).Err?
  {
  }

  /**
   * The output path the script hands to `compute_path` (channel_sim.py:133):
   * the joined, unresolved `--path` and `--name`.
   */
  function SimulationPathAsWritten(path: string, name: string): string
  {
    JoinPath(path, name)
  }

  /**
   * As written, whenever the requested directory already exists the library
   * writes into that old directory, never into the fresh one the resolver
   * created.
   */
  lemma AsWrittenMissesResolved(existing: set<string>, path: string, name: string, slot: Slot)
    requires JoinPath(path, name) in existing
    requires IsFirstFree(existing, JoinPath(path, name), slot)
    ensures SimulationPathAsWritten(path, name) in existing
    ensures SimulationPathAsWritten(path, name) != slot.dir
  {
  }

  lemma RunNormalised()
    ensures NormalizeName("run") == "run_0000"
  {
    assert '_' !in "run" by {
      assert "run" == ['r', 'u', 'n'];
    }
    assert "run" + DefaultSuffix == "run_0000";
  }

  /** Joining a relative `stem_counter` name under `base` keeps the `_counter` at the end. */
  lemma JoinCounter(base: string, stem: string, counter: string)
    requires |stem| > 0 && stem[0] != '/'
    ensures JoinPath(base, stem + "_" + counter) == JoinPath(base, stem) + "_" + counter
  {
    assert (stem + "_" + counter)[0] == stem[0];
  }

  /**
   * Under any base path, a relative `stem_NNNN` whose directory is the only
   * one that exists resolves to the next counter value.
   */
  lemma TakenRequestGoesToNext(base: string, stem: string, n: int, taken: string, next: string)
    requires |stem| > 0 && stem[0] != '/'
    requires taken == stem + "_" + Format(n) && next == stem + "_" + Format(n + 1)
    ensures IsFirstFree({JoinPath(base, taken)}, JoinPath(base, taken), Slot(JoinPath(base, next), n + 1))
  {
    JoinCounter(base, stem, Format(n));
    JoinCounter(base, stem, Format(n + 1));
    TakenTargetGoesToNext(JoinPath(base, stem), n);
  }

  lemma SmallFormats()
    ensures Format(0) == "0000" && Format(1) == "0001"
  {
    assert Zeros(3) == "000" by {
      assert Zeros(1) == "0";
      assert Zeros(2) == "00";
    }
  }

  lemma RunLiterals()
    ensures "run" + "_" + Format(0) == "run_0000" && "run" + "_" + Format(1) == "run_0001"
    ensures |"run"| > 0 && "run"[0] != '/'
  {
    SmallFormats();
  }

  /**
   * The concrete case: `--name run` under any base path where `run_0000`
   * exists. The resolver picks `run_0001`, yet the library is told to write
   * into `run_0000`.
   */
  lemma AsWrittenCounterexample(base: string)
    ensures NormalizeName("run") == "run_0000"
    ensures var requested := JoinPath(base, "run_0000");
            var resolved := JoinPath(base, "run_0001");
            IsFirstFree({requested}, requested, Slot(resolved, 1)) &&
            SimulationPathAsWritten(base, "run_0000") == requested && requested != resolved
  {
    RunNormalised();
    RunLiterals();
    TakenRequestGoesToNext(base, "run", 0, "run_0000", "run_0001");
  }

  /**
   * `main(parse_args())` with the output path corrected to the resolved
   * directory. `created` is the directory the run made, if it got that far;
   * on success it is where the library writes, a directory that did not
   * exist before the run and exists now.
   */
  method Run(fs: FileSystem, args: Args) returns (created: Option<Slot>, r: Result<Launch, Failure>)
    modifies fs, args
    ensures var v := ValidateStations(args.nms, old(args.pms), old(args.tms));
            v.Err? ==> r == Err(StationFailure(v.error)) && created.None?
    ensures var v := ValidateStations(args.nms, old(args.pms), old(args.tms));
            var target := JoinPath(args.path, NormalizeName(old(args.name)));
            v.Ok? && SuffixNumber(target).None? ==>
              r == Err(SuffixFailure(BadSuffix(LastPart(target, '_')))) && created.None?
    ensures var v := ValidateStations(args.nms, old(args.pms), old(args.tms));
            v.Ok? ==> args.name == NormalizeName(old(args.name)) &&
                      args.pms == Some(v.value.pms) && args.tms == v.value.tms
    ensures ValidateStations(args.nms, old(args.pms), old(args.tms)).Err? ==> args.name == old(args.name)
    ensures created.None? ==> fs.existing == old(fs.existing) && r.Err?
    ensures created.Some? ==>
              IsFirstFree(old(fs.existing), JoinPath(args.path, NormalizeName(old(args.name))), created.value) &&
              fs.existing == old(fs.existing) + {created.value.dir} + Ancestors(created.value.dir)
    ensures var v := ValidateStations(args.nms, old(args.pms), old(args.tms));
            var target := JoinPath(args.path, NormalizeName(old(args.name)));
            created.Some? <==> v.Ok? && SuffixNumber(target).Some?
    ensures created.Some? && Dispatch(args.mode).Err? ==> r == Err(ModeFailure(UnknownMode(args.mode)))
    ensures var v := ValidateStations(args.nms, old(args.pms), old(args.tms));
            created.Some? && Dispatch(args.mode).Ok? && v.Ok? ==>
              var p := Pack(args.nms, v.value);
              (p.Err? ==> r == Err(PackFailure(p.error))) &&
              (p.Ok? ==> r == Ok(Launch(created.value, Dispatch(args.mode).value, p.value.0, p.value.1)))
    ensures r.Err? && r.error.ModeFailure? ==> created.Some? && r.error.mode == UnknownMode(args.mode)
    ensures r.Ok? ==>
              var v := ValidateStations(args.nms, old(args.pms), old(args.tms));
              v.Ok? && Pack(args.nms, v.value) == Ok((r.value.pms, r.value.tms)) &&
              Dispatch(args.mode) == Ok(r.value.variant) &&
              created == Some(r.value.output)
    ensures r.Ok? ==> r.value.output.dir !in old(fs.existing) && r.value.output.dir in fs.existing
  {
    created := None;
    var failure := args.Finish();
    if failure.Some? {
      return created, Err(StationFailure(failure.value));
    }
    var target := JoinPath(args.path, args.name);
    var slot := fs.Resolve(target);
    if slot.Err? {
      return created, Err(SuffixFailure(slot.error));
    }
    created := Some(slot.value);
    var variant := Dispatch(args.mode);
    DispatchSpec(args.mode);
    if variant.Err? {
      return created, Err(ModeFailure(variant.error));
    }
    var packed := Pack(args.nms, Stations(args.pms.value, args.tms));
    if packed.Err? {
      return created, Err(PackFailure(packed.error));
    }
    return created, Ok(Launch(slot.value, variant.value, packed.value.0, packed.value.1));
  }
}

=== FILE: outcomes.dfy ===
/** Option and Result values used for the script's failure paths (Python exceptions). */
module Outcomes {

  datatype Option<+T> = None | Some(value: T)

  datatype Result<+T, +E> = Ok(value: T) | Err(error: E)
}

=== FILE: output_dir.dfy ===
/**
 * The output-directory resolver of `main` (channel_sim.py:151-164). The file
 * system is the set of path strings that exist; the last `_`-separated part of
 * the target path is a collision counter that is raised until the path is
 * free, and the free path is then created with `os.makedirs`.
 */
module OutputDir {
  import opened Outcomes
  import opened Text

  /** `os.path.join(path, name)` for POSIX paths: the result always ends with `name`. */
  function JoinPath(path: string, name: string): (r: string)
    ensures |r| >= |name| && r[|r| - |name|..] == name
    ensures |name| > 0 && name[0] == '/' ==> r == name
    ensures !(|name| > 0 && name[0] == '/') ==>
      |path| <= |r| && r[..|path|] == path &&
      if |path| == 0 || path[|path| - 1] == '/' then |r| == |path| + |name|
      else |r| == |path| + 1 + |name| && r[|path|] == '/'
  {
    if |name| > 0 && name[0] == '/' then name
    else if |path| == 0 || path[|path| - 1] == '/' then path + name
    else path + "/" + name
  }

  /** `int(dir.split("_")[-1])`, or None where Python raises ValueError. */
  function SuffixNumber(dir: string): Option<int>
  {
    ParseInt(LastPart(dir, '_'))
  }

  /** channel_sim.py:158: `'_'.join(dir.split("_")[:-1] + [f"{n:04d}"])`. */
  function Renumbered(dir: string, n: int): string
  {
    Join(InitParts(dir, '_') + [Format(n)], '_')
  }

  /**
   * The path tried for counter value `n` when the target's own counter is
   * `n0`: the target itself, verbatim, for `n0`, and the renumbered path for
   * every later value.
   */
  function Candidate(target: string, n0: int, n: int): string
  {
    if n == n0 then target else Renumbered(target, n)
  }

  /**
   * Renumbering keeps every part before the last `_` and puts the formatted
   * number last, so the new counter reads back as `n`.
   */
  lemma RenumberedParts(dir: string, n: int)
    ensures InitParts(Renumbered(dir, n), '_') == InitParts(dir, '_')
    ensures LastPart(Renumbered(dir, n), '_') == Format(n)
    ensures SuffixNumber(Renumbered(dir, n)) == Some(n)
  {
    ReplaceLastPart(dir, Format(n), '_');
    FormatRoundTrip(n);
  }

  /**
   * The same fact as text: for a path `prefix + "_" + counter`, renumbering
   * replaces only the counter, with at least four (zero-padded) digits, and
   * the counter read is the one after the last `_`.
   */
  lemma CounterPath(prefix: string, counter: string, n: int)
    requires '_' !in counter
    ensures LastPart(prefix + "_" + counter, '_') == counter
    ensures Renumbered(prefix + "_" + counter, n) == prefix + "_" + Format(n)
    ensures |Format(n)| >= 4 && (n >= 0 ==> AllDigits(Format(n)) && Value(Format(n)) == n)
  {
    var dir := prefix + "_" + counter;
    SplitSnoc(prefix, counter, '_');
    assert InitParts(dir, '_') == Split(prefix, '_');
    JoinSnoc(Split(prefix, '_'), Format(n), '_');
    JoinSplit(prefix, '_');
    if n >= 0 {
      ValuePadZeros(n, 4);
    }
  }

  /** Renumbering a renumbered path is renumbering the original (the loop's prefix never drifts). */
  lemma RenumberTwice(dir: string, a: int, b: int)
    ensures Renumbered(Renumbered(dir, a), b) == Renumbered(dir, b)
  {
    RenumberedParts(dir, a);
  }

  /** Every candidate from `n0` on carries its own counter value. */
  lemma CandidateNumber(target: string, n0: int, n: int)
    requires SuffixNumber(target) == Some(n0) && n >= n0
    ensures SuffixNumber(Candidate(target, n0, n)) == Some(n)
  {
    if n != n0 {
      RenumberedParts(target, n);
    }
  }

  /** Different counter values give different paths. */
  lemma CandidatesDistinct(target: string, n0: int, a: int, b: int)
    requires SuffixNumber(target) == Some(n0) && a >= n0 && b >= n0 && a != b
    ensures Candidate(target, n0, a) != Candidate(target, n0, b)
  {
    CandidateNumber(target, n0, a);
    CandidateNumber(target, n0, b);
  }

  /** The loop's step: renumbering candidate `n` gives candidate `n + 1`. */
  lemma CandidateStep(target: string, n0: int, n: int)
    requires n >= n0
    ensures Renumbered(Candidate(target, n0, n), n + 1) == Candidate(target, n0, n + 1)
  {
    if n != n0 {
      RenumberTwice(target, n, n + 1);
    }
  }

  /** A resolved directory and the counter value it carries. */
  datatype Slot = Slot(dir: string, num: int)

  datatype ResolveError = BadSuffix(segment: string)

  /** Every candidate from counter value `n0` up to, not including, `num` exists. */
  ghost predicate AllTaken(existing: set<string>, target: string, n0: int, num: int)
  {
    forall m :: n0 <= m < num ==> Candidate(target, n0, m) in existing
  }

  /**
   * `slot` is what the resolver must pick: the candidate for the smallest
   * counter value at or after the target's own whose path does not exist.
   */
  ghost predicate IsFirstFree(existing: set<string>, target: string, slot: Slot)
  {
    SuffixNumber(target).Some? &&
    var n0 := SuffixNumber(target).value;
    n0 <= slot.num &&
    slot.dir == Candidate(target, n0, slot.num) &&
    slot.dir !in existing &&
    AllTaken(existing, target, n0, slot.num)
  }

  /** At most one slot is the first free one. */
  lemma FirstFreeUnique(existing: set<string>, target: string, a: Slot, b: Slot)
    requires IsFirstFree(existing, target, a) && IsFirstFree(existing, target, b)
    ensures a == b
  {
    var n0 := SuffixNumber(target).value;
    assert a.num < b.num ==> Candidate(target, n0, a.num) in existing;
    assert b.num < a.num ==> Candidate(target, n0, b.num) in existing;
  }

  lemma AllTakenStep(existing: set<string>, target: string, n0: int, num: int)
    requires AllTaken(existing, target, n0, num)
    requires Candidate(target, n0, num) in existing
    ensures AllTaken(existing, target, n0, num + 1)
  {
  }

  /** An injective map from `[lo, hi)` into `s` needs `hi - lo` distinct elements of `s`. */
  lemma {:induction false} InjectiveRangeSize(f: int -> string, lo: int, hi: int, s: set<string>)
    requires lo <= hi
    requires forall m :: lo <= m < hi ==> f(m) in s
    requires forall a, b :: lo <= a < hi && lo <= b < hi && a != b ==> f(a) != f(b)
    ensures hi - lo <= |s|
    decreases hi - lo
  {
    if lo < hi {
      var x := f(hi - 1);
      InjectiveRangeSize(f, lo, hi - 1, s - {x});
    }
  }

  /**
   * Each counter value passed over names a distinct existing path, so the
   * counter cannot climb more than `|existing|` past its start: the loop ends.
   */
  lemma TakenBound(existing: set<string>, target: string, n0: int, num: int)
    requires SuffixNumber(target) == Some(n0) && n0 <= num
    requires AllTaken(existing, target, n0, num)
    ensures num - n0 <= |existing|
  {
    var f := m => Candidate(target, n0, m);
    forall a, b | n0 <= a < num && n0 <= b < num && a != b ensures f(a) != f(b) {
      CandidatesDistinct(target, n0, a, b);
    }
    InjectiveRangeSize(f, n0, num, existing);
  }

  /** One pass of the loop body: candidate `num` was taken; the scan moves on to `num + 1`. */
  lemma ScanStep(existing: set<string>, target: string, n0: int, num: int)
    requires SuffixNumber(target) == Some(n0) && n0 <= num
    requires AllTaken(existing, target, n0, num)
    requires Candidate(target, n0, num) in existing
    ensures AllTaken(existing, target, n0, num + 1)
    ensures num + 1 - n0 <= |existing|
    ensures Renumbered(Candidate(target, n0, num), num + 1) == Candidate(target, n0, num + 1)
  {
    AllTakenStep(existing, target, n0, num);
    TakenBound(existing, target, n0, num + 1);
    CandidateStep(target, n0, num);
  }

  /** Directories `os.makedirs(p)` creates besides `p` itself when missing: its proper `/`-prefixes. */
  function Ancestors(p: string): (r: set<string>)
    ensures forall a :: a in r ==> |a| < |p| && a == p[..|a|] && p[|a|] == '/'
    ensures forall i :: 0 < i < |p| && p[i] == '/' ==> p[..i] in r
  {
    set i | 0 < i < |p| && p[i] == '/' :: p[..i]
  }

  /** The file system as the set of paths that exist. */
  class FileSystem {
    var existing: set<string>

    constructor (existing: set<string>)
      ensures this.existing == existing
    {
      this.existing := existing;
    }

    /**
     * channel_sim.py:151-161: read the counter of `target`, then raise it
     * while the current candidate exists. Fails where `int()` would.
     */
    method FirstFree(target: string) returns (r: Result<Slot, ResolveError>)
      ensures r.Err? <==> SuffixNumber(target).None?
      ensures r.Err? ==> r.error == BadSuffix(LastPart(target, '_'))
      ensures r.Ok? ==> IsFirstFree(existing, target, r.value)
    {
      var parsed := SuffixNumber(target);
      if parsed.None? {
        return Err(BadSuffix(LastPart(target, '_')));
      }
      var n0 := parsed.value;
      var num := n0;
      var dir := target;
      while dir in existing
        invariant n0 <= num && dir == Candidate(target, n0, num)
        invariant AllTaken(existing, target, n0, num)
        decreases |existing| - (num - n0)
      {
        ScanStep(existing, target, n0, num);
        num := num + 1;
        dir := Renumbered(dir, num);
      }
      return Ok(Slot(dir, num));
    }

    /**
     * channel_sim.py:151-164: resolve, then create the free directory
     * together with its missing parents. Nothing else in the file system
     * changes, and nothing changes when the counter cannot be read.
     */
    method Resolve(target: string) returns (r: Result<Slot, ResolveError>)
      modifies this
      ensures r.Err? <==> SuffixNumber(target).None?
      ensures r.Err? ==> r.error == BadSuffix(LastPart(target, '_')) && existing == old(existing)
      ensures r.Ok? ==> IsFirstFree(old(existing), target, r.value)
      ensures r.Ok? ==> existing == old(existing) + {r.value.dir} + Ancestors(r.value.dir)
    {
      r := FirstFree(target);
      if r.Ok? && r.value.dir !in existing {
        existing := existing + {r.value.dir} + Ancestors(r.value.dir);
      }
    }
  }

  /**
   * When the parents of the resolved (and so absent) directory already exist,
   * the file system grows by exactly that directory.
   */
  lemma ResolvedIsFresh(before: set<string>, after: set<string>, dir: string)
    requires dir !in before
    requires after == before + {dir} + Ancestors(dir)
    requires Ancestors(dir) <= before
    ensures after == before + {dir} && |after| == |before| + 1
  {
    assert before + Ancestors(dir) == before;
  }

  /**
   * When the requested directory is the only one that exists, the next
   * counter value is chosen: `run_0000` taken gives `run_0001`.
   */
  lemma TakenTargetGoesToNext(prefix: string, n: int)
    ensures var target := prefix + "_" + Format(n);
            IsFirstFree({target}, target, Slot(prefix + "_" + Format(n + 1), n + 1))
  {
    var target := prefix + "_" + Format(n);
    CounterPath(prefix, Format(n), n + 1);
    FormatRoundTrip(n);
    assert SuffixNumber(target) == Some(n);
    CandidatesDistinct(target, n, n, n + 1);
  }

  /** A target that does not exist is used verbatim: its counter is not re-padded. */
  lemma UnusedTargetKept(existing: set<string>, target: string)
    requires SuffixNumber(target).Some? && target !in existing
    ensures IsFirstFree(existing, target, Slot(target, SuffixNumber(target).value))
  {
  }

  /** A name whose text after the last `_` is a word, such as `my_run`, has no counter. */
  lemma WordSuffixRejected()
    ensures SuffixNumber("my_run").None?
  {
    SplitAfter("my", "run", '_');
    SplitWithout("run", '_');
    assert "my_run" == "my" + ['_'] + "run";
    ParseRejects("run", 0);
  }
}

=== FILE: positions.dfy ===
/**
 * The argument types `position_handle` and `position_sequence_handle`
 * (channel_sim.py:17-20): a position is comma-separated numbers, a sequence of
 * positions is colon-separated positions. Turning one token into a float is a
 * parameter of the model (`toFloat`); `None` stands for Python's ValueError.
 */
module Positions {
  import opened Outcomes
  import opened Text

  /**
   * A list comprehension whose element conversion may raise: the conversions
   * run left to right and the first failing one ends the comprehension with
   * its error.
   */
  function ConvertAll<T>(items: seq<string>, conv: string -> Result<T, string>): (r: Result<seq<T>, string>)
    ensures r.Ok? <==> forall i :: 0 <= i < |items| ==> conv(items[i]).Ok?
    ensures r.Ok? ==> |r.value| == |items| && forall i :: 0 <= i < |items| ==> conv(items[i]) == Ok(r.value[i])
    ensures r.Err? ==> exists i :: 0 <= i < |items| && conv(items[i]) == Err(r.error) &&
                                   forall j :: 0 <= j < i ==> conv(items[j]).Ok?
  {
    if |items| == 0 then Ok([])
    else match conv(items[0])
      case Err(e) => Err(e)
      case Ok(v) =>
        match ConvertAll(items[1..], conv)
        case Err(e) =>
          ghost var k :| 0 <= k < |items| - 1 && conv(items[1..][k]) == Err(e) &&
                         forall j :: 0 <= j < k ==> conv(items[1..][j]).Ok?;
          assert conv(items[k + 1]) == Err(e);
          Err(e)
        case Ok(vs) => Ok([v] + vs)
  }

  /**
   * The stripped `sep`-separated fields of `value`
   * (`[item.strip() for item in value.split(sep)]`): one more than there are
   * separators, none with whitespace at either end.
   */
  function Fields(value: string, sep: char): (r: seq<string>)
    ensures |r| == multiset(value)[sep] + 1
    ensures forall i :: 0 <= i < |r| ==> r[i] == [] || (!IsSpace(r[i][0]) && !IsSpace(r[i][|r[i]| - 1]))
  {
    SplitCount(value, sep);
    var parts := Split(value, sep);
    seq(|parts|, i requires 0 <= i < |parts| => Strip(parts[i]))
  }

  /** Field `i` is part `i` of the split, stripped; that part has no separator. */
  lemma FieldOfPart(value: string, sep: char, i: nat)
    requires i < |Fields(value, sep)|
    ensures i < |Split(value, sep)| && sep !in Split(value, sep)[i]
    ensures Fields(value, sep)[i] == Strip(Split(value, sep)[i])
  {
  }

  /**
   * Field `i` is the text between the `i`-th and the `i+1`-th separator (or
   * an end of `value`), with the whitespace at both of its ends cut off.
   */
  lemma FieldSegment(value: string, sep: char, i: nat) returns (lo: nat, hi: nat)
    requires i < |Fields(value, sep)|
    ensures lo <= hi <= |value|
    ensures i == 0 ==> lo == 0
    ensures i > 0 ==> lo > 0 && value[lo - 1] == sep
    ensures hi == |value| || value[hi] == sep
    ensures multiset(value[..lo])[sep] == i
    ensures sep !in value[lo..hi]
    ensures Fields(value, sep)[i] == Strip(value[lo..hi])
  {
    FieldOfPart(value, sep, i);
    lo, hi := SplitSegment(value, sep, i);
  }

  /** A token that `float()` rejects is the error; any other becomes its number. */
  function FloatOf(token: string, toFloat: string -> Option<real>): Result<real, string>
  {
    if toFloat(token).Some? then Ok(toFloat(token).value) else Err(token)
  }

  /** `[float(t) for t in tokens]`: the first token that does not convert is the error. */
  function Floats(tokens: seq<string>, toFloat: string -> Option<real>): (r: Result<seq<real>, string>)
    ensures r.Ok? <==> forall i :: 0 <= i < |tokens| ==> toFloat(tokens[i]).Some?
    ensures r.Ok? ==> |r.value| == |tokens| && forall i :: 0 <= i < |tokens| ==> toFloat(tokens[i]) == Some(r.value[i])
    ensures r.Err? ==> exists i :: 0 <= i < |tokens| && tokens[i] == r.error && toFloat(tokens[i]).None? &&
                                   forall j :: 0 <= j < i ==> toFloat(tokens[j]).Some?
  {
    ConvertAll(tokens, t => FloatOf(t, toFloat))
  }

  /** `position_handle(value)`: one number per comma-separated, stripped token. */
  function PositionHandle(value: string, toFloat: string -> Option<real>): (r: Result<seq<real>, string>)
    ensures var tokens := Fields(value, ',');
            r.Ok? <==> forall i :: 0 <= i < |tokens| ==> toFloat(tokens[i]).Some?
    ensures var tokens := Fields(value, ',');
            r.Ok? ==> |r.value| == |tokens| && forall i :: 0 <= i < |tokens| ==> toFloat(tokens[i]) == Some(r.value[i])
    ensures r.Err? ==> r.error in Fields(value, ',') && toFloat(r.error).None?
  {
    Floats(Fields(value, ','), toFloat)
  }

  /** `position_sequence_handle(value)`: one position per colon-separated, stripped group. */
  function PositionSequenceHandle(value: string, toFloat: string -> Option<real>): (r: Result<seq<seq<real>>, string>)
    ensures var groups := Fields(value, ':');
            r.Ok? <==> forall i :: 0 <= i < |groups| ==> PositionHandle(groups[i], toFloat).Ok?
    ensures var groups := Fields(value, ':');
            r.Ok? ==> |r.value| == |groups| &&
                      forall i :: 0 <= i < |groups| ==> PositionHandle(groups[i], toFloat) == Ok(r.value[i])
    ensures r.Err? ==> toFloat(r.error).None?
  {
    ConvertAll(Fields(value, ':'), g => PositionHandle(g, toFloat))
  }

  /** A parsed position has one coordinate more than its text has commas. */
  lemma PositionArity(value: string, toFloat: string -> Option<real>)
    requires PositionHandle(value, toFloat).Ok?
    ensures |PositionHandle(value, toFloat).value| == multiset(value)[','] + 1
  {
    SplitCount(value, ',');
  }

  /** A parsed sequence has one position more than its text has colons. */
  lemma SequenceLength(value: string, toFloat: string -> Option<real>)
    requires PositionSequenceHandle(value, toFloat).Ok?
    ensures |PositionSequenceHandle(value, toFloat).value| == multiset(value)[':'] + 1
  {
    SplitCount(value, ':');
  }
}

=== FILE: scenario.dfy ===
/**
 * The mode dispatch of `setup_scenario` (channel_sim.py:96-103): the mode
 * token, lower-cased, picks one of the three 3GPP scenario variants. The
 * scenario constructors themselves belong to the channel library and are
 * not part of this model; a variant stands for the constructor called.
 */
module Scenario {
  import opened Outcomes
  import opened Text

  /** Scenario3GPPInDoor, Scenario3GPPUmi and Scenario3GPPUma. */
  datatype Variant = InDoor | Umi | Uma

  datatype ModeError = UnknownMode(token: string)

  /** The token argparse offers for each variant (`choices=["ISP","UMA","UMI"]`). */
  function Choice(v: Variant): string
  {
    match v
    case InDoor => "ISP"
    case Umi => "UMI"
    case Uma => "UMA"
  }

  /**
   * `setup_scenario`'s if-chain on `mode.lower()`: a chosen variant's choice
   * matches the token up to case; a refusal carries the token as given.
   */
  function Dispatch(mode: string): (r: Result<Variant, ModeError>)
    ensures r.Ok? ==> Lower(mode) == Lower(Choice(r.value))
    ensures r.Err? ==> r.error == UnknownMode(mode)
  {
    LowerChoices();
    var m := Lower(mode);
    if m == "isp" then Ok(InDoor)
    else if m == "umi" then Ok(Umi)
    else if m == "uma" then Ok(Uma)
    else Err(UnknownMode(mode))
  }

  lemma LowerChoices()
    ensures Lower(Choice(InDoor)) == "isp"
    ensures Lower(Choice(Umi)) == "umi"
    ensures Lower(Choice(Uma)) == "uma"
  {
    assert Lower("P") == "p" && Lower("I") == "i" && Lower("A") == "a";
    assert Lower("SP") == "sp" && Lower("MI") == "mi" && Lower("MA") == "ma";
  }

  /**
   * A token selects a variant exactly when it equals that variant's choice up
   * to letter case; every other token is refused with the token itself.
   */
  lemma DispatchSpec(mode: string)
    ensures forall v :: Dispatch(mode) == Ok(v) <==> Lower(mode) == Lower(Choice(v))
    ensures Dispatch(mode).Err? <==> forall v :: Lower(mode) != Lower(Choice(v))
    ensures Dispatch(mode).Err? ==> Dispatch(mode).error.token == mode
  {
    forall v ensures Dispatch(mode) == Ok(v) <==> Lower(mode) == Lower(Choice(v)) {
      DispatchChoice(mode, v);
    }
  }

  lemma DispatchChoice(mode: string, v: Variant)
    ensures Dispatch(mode) == Ok(v) <==> Lower(mode) == Lower(Choice(v))
  {
    LowerChoices();
    assert "isp" != "umi" && "isp" != "uma" && "umi" != "uma";
  }

  /** Each argparse choice reaches its own variant. */
  lemma ChoiceRoundTrip(v: Variant)
    ensures Dispatch(Choice(v)) == Ok(v)
  {
    DispatchSpec(Choice(v));
  }

  /** Tokens that agree up to letter case dispatch alike. */
  lemma CaseInsensitive(a: string, b: string)
    requires Lower(a) == Lower(b)
    ensures Dispatch(a).Ok? <==> Dispatch(b).Ok?
    ensures Dispatch(a).Ok? ==> Dispatch(a) == Dispatch(b)
  {
  }
}

=== FILE: text.dfy ===
/**
 * The Python string operations the driver script relies on: `str.split` and
 * `str.join` on a one-character separator, `str.strip()`, `str.lower()` on the
 * mode token, `int(...)` on a path segment and the `{n:04d}` format.
 */
module Text {
  import opened Outcomes

  // ---------------------------------------------------------------------------
  // split / join
  // ---------------------------------------------------------------------------

  /** `s.split(sep)`: never empty, and no part contains the separator. */
  function Split(s: string, sep: char): (parts: seq<string>)
    ensures |parts| >= 1
    ensures forall i :: 0 <= i < |parts| ==> sep !in parts[i]
  {
    if |s| == 0 then [""]
    else
      var rest := Split(s[1..], sep);
      if s[0] == sep then [""] + rest
      else [[s[0]] + rest[0]] + rest[1..]
  }

  /** `sep.join(parts)`. */
  function Join(parts: seq<string>, sep: char): string
  {
    if |parts| == 0 then ""
    else if |parts| == 1 then parts[0]
    else parts[0] + [sep] + Join(parts[1..], sep)
  }

  /** The text after the last separator (`s.split(sep)[-1]`). */
  function LastPart(s: string, sep: char): string
  {
    var parts := Split(s, sep);
    parts[|parts| - 1]
  }

  /** Every part but the last (`s.split(sep)[:-1]`). */
  function InitParts(s: string, sep: char): seq<string>
  {
    var parts := Split(s, sep);
    parts[..|parts| - 1]
  }

  lemma {:induction false} JoinPrepend(c: string, parts: seq<string>, sep: char)
    requires |parts| >= 1
    ensures Join([c + parts[0]] + parts[1..], sep) == c + Join(parts, sep)
  {
    var ps := [c + parts[0]] + parts[1..];
    if |parts| > 1 {
      assert ps[1..] == parts[1..];
    }
  }

  /** Joining the parts of a split gives back the original string. */
  lemma {:induction false} JoinSplit(s: string, sep: char)
    ensures Join(Split(s, sep), sep) == s
  {
    if |s| > 0 {
      var rest := Split(s[1..], sep);
      JoinSplit(s[1..], sep);
      if s[0] == sep {
        assert ([""] + rest)[1..] == rest;
        assert s == [sep] + s[1..];
      } else {
        JoinPrepend([s[0]], rest, sep);
        assert s == [s[0]] + s[1..];
      }
    }
  }

  lemma {:induction false} SplitWithout(p: string, sep: char)
    requires sep !in p
    ensures Split(p, sep) == [p]
  {
    if |p| > 0 {
      SplitWithout(p[1..], sep);
      assert [p[0]] + p[1..] == p;
    }
  }

  lemma {:induction false} SplitAfter(p: string, r: string, sep: char)
    requires sep !in p
    ensures Split(p + [sep] + r, sep) == [p] + Split(r, sep)
  {
    var s := p + [sep] + r;
    if |p| == 0 {
      assert s[1..] == r;
    } else {
      assert s[1..] == p[1..] + [sep] + r;
      SplitAfter(p[1..], r, sep);
      assert [p[0]] + p[1..] == p;
    }
  }

  /** Splitting a join of separator-free parts gives back the parts. */
  lemma {:induction false} SplitJoin(parts: seq<string>, sep: char)
    requires |parts| >= 1
    requires forall i :: 0 <= i < |parts| ==> sep !in parts[i]
    ensures Split(Join(parts, sep), sep) == parts
  {
    if |parts| == 1 {
      SplitWithout(parts[0], sep);
    } else {
      SplitJoin(parts[1..], sep);
      SplitAfter(parts[0], Join(parts[1..], sep), sep);
      assert [parts[0]] + parts[1..] == parts;
    }
  }

  /** `s.split(sep)` has one part more than `s` has separators. */
  lemma {:induction false} SplitCount(s: string, sep: char)
    ensures |Split(s, sep)| == multiset(s)[sep] + 1
  {
    if |s| > 0 {
      SplitCount(s[1..], sep);
      assert s == [s[0]] + s[1..];
      assert multiset(s) == multiset([s[0]]) + multiset(s[1..]);
    }
  }

  /**
   * `part` sits in `s` at `start`, after exactly `i` separators: it starts at
   * the beginning or just after a separator and ends at the end or just
   * before one.
   */
  ghost predicate PartAt(s: string, sep: char, part: string, start: nat, i: nat)
  {
    start + |part| <= |s| && s[start..start + |part|] == part &&
    (i == 0 ==> start == 0) &&
    (i > 0 ==> start > 0 && s[start - 1] == sep) &&
    (start + |part| == |s| || s[start + |part|] == sep) &&
    multiset(s[..start])[sep] == i
  }

  /** A part of `s[1..]` is a part of `s` one place later, with `s[0]` counted when it is a separator. */
  lemma ShiftPart(s: string, sep: char, part: string, st: nat, j: nat)
    requires |s| > 0 && PartAt(s[1..], sep, part, st, j)
    requires s[0] != sep ==> j > 0
    ensures PartAt(s, sep, part, st + 1, if s[0] == sep then j + 1 else j)
  {
    assert s[st + 1..st + 1 + |part|] == s[1..][st..st + |part|];
    CountCons(s, sep, st);
  }

  /** Prefixes of `s` and of `s[1..]` differ in separator count only by `s[0]`. */
  lemma CountCons(s: string, sep: char, st: nat)
    requires st < |s|
    ensures multiset(s[..st + 1])[sep] == multiset(s[1..][..st])[sep] + (if s[0] == sep then 1 else 0)
  {
    assert s[..st + 1] == [s[0]] + s[1..][..st];
  }

  /** The first part of `s[1..]`, with `s[0]` in front, is the first part of `s`. */
  lemma ConsPart(s: string, sep: char, part: string)
    requires |s| > 0 && PartAt(s[1..], sep, part, 0, 0)
    ensures PartAt(s, sep, [s[0]] + part, 0, 0)
  {
    assert s[..1 + |part|] == [s[0]] + s[1..][..|part|];
  }

  /**
   * Part `i` of a split is the slice of `s` that starts at the beginning or
   * just after a separator and ends at the end or just before one; exactly
   * `i` separators come before it.
   */
  lemma {:induction false} SplitPartSlice(s: string, sep: char, i: nat) returns (start: nat)
    requires i < |Split(s, sep)|
    ensures PartAt(s, sep, Split(s, sep)[i], start, i)
  {
    if |s| == 0 {
      start := 0;
    } else {
      var rest := Split(s[1..], sep);
      if s[0] == sep && i == 0 {
        start := 0;
      } else if s[0] == sep {
        var st := SplitPartSlice(s[1..], sep, i - 1);
        ShiftPart(s, sep, rest[i - 1], st, i - 1);
        start := st + 1;
      } else if i == 0 {
        var st := SplitPartSlice(s[1..], sep, 0);
        ConsPart(s, sep, rest[0]);
        start := 0;
      } else {
        var st := SplitPartSlice(s[1..], sep, i);
        ShiftPart(s, sep, rest[i], st, i);
        start := st + 1;
      }
    }
  }

  /** Part `i` of a split lies between the `i`-th and the next separator (or an end of `s`). */
  lemma SplitSegment(s: string, sep: char, i: nat) returns (lo: nat, hi: nat)
    requires i < |Split(s, sep)|
    ensures lo <= hi <= |s| && s[lo..hi] == Split(s, sep)[i]
    ensures i == 0 ==> lo == 0
    ensures i > 0 ==> lo > 0 && s[lo - 1] == sep
    ensures hi == |s| || s[hi] == sep
    ensures multiset(s[..lo])[sep] == i
  {
    lo := SplitPartSlice(s, sep, i);
    hi := lo + |Split(s, sep)[i]|;
  }

  /** A string splits into a single part exactly when it has no separator. */
  lemma SplitSingle(s: string, sep: char)
    ensures |Split(s, sep)| == 1 <==> sep !in s
  {
    SplitCount(s, sep);
    assert sep in s <==> multiset(s)[sep] > 0;
  }

  /** A separator followed by a separator-free tail adds exactly that tail as the last part. */
  lemma {:induction false} SplitSnoc(p: string, last: string, sep: char)
    requires sep !in last
    ensures Split(p + [sep] + last, sep) == Split(p, sep) + [last]
  {
    var s := p + [sep] + last;
    if |p| == 0 {
      assert s[1..] == last;
      SplitWithout(last, sep);
    } else {
      assert s[1..] == p[1..] + [sep] + last;
      SplitSnoc(p[1..], last, sep);
    }
  }

  /**
   * Replacing the last part keeps everything before the last separator: the
   * result splits into the same leading parts followed by the new last part.
   */
  lemma ReplaceLastPart(s: string, last: string, sep: char)
    requires sep !in last
    ensures Split(Join(InitParts(s, sep) + [last], sep), sep) == InitParts(s, sep) + [last]
  {
    var parts := InitParts(s, sep) + [last];
    forall i | 0 <= i < |parts| ensures sep !in parts[i] {
      if i < |parts| - 1 {
        assert parts[i] == Split(s, sep)[i];
      }
    }
    SplitJoin(parts, sep);
  }

  /** The join of a nonempty prefix and a last part, spelled as a concatenation. */
  lemma {:induction false} JoinSnoc(init: seq<string>, last: string, sep: char)
    requires |init| >= 1
    ensures Join(init + [last], sep) == Join(init, sep) + [sep] + last
  {
    if |init| == 1 {
      assert (init + [last])[1..] == [last];
    } else {
      assert (init + [last])[1..] == init[1..] + [last];
      JoinSnoc(init[1..], last, sep);
    }
  }

  // ---------------------------------------------------------------------------
  // strip / lower
  // ---------------------------------------------------------------------------

  /**
   * The characters Python's `str.isspace()` accepts, which `str.strip()`
   * removes: TAB to CR, U+001C to SPACE, U+0085, NO-BREAK SPACE,
   * OGHAM SPACE MARK, EN QUAD to HAIR SPACE, the line and paragraph
   * separators, NARROW NO-BREAK SPACE, MEDIUM MATHEMATICAL SPACE and
   * IDEOGRAPHIC SPACE. `int()` skips all of them except the four information
   * separators (see `IsInfoSeparator`).
   */
  predicate IsSpace(c: char)
  {
    ('\t' <= c <= '\r') || ('\U{1C}' <= c <= ' ') || c == '\U{85}' || c == '\U{A0}' ||
    c == '\U{1680}' || ('\U{2000}' <= c <= '\U{200A}') || c == '\U{2028}' || c == '\U{2029}' ||
    c == '\U{202F}' || c == '\U{205F}' || c == '\U{3000}'
  }

  function StripLeft(s: string): (r: string)
    ensures |r| <= |s| && r == s[|s| - |r|..]
    ensures r == [] || !IsSpace(r[0])
  {
    if |s| > 0 && IsSpace(s[0]) then StripLeft(s[1..]) else s
  }

  function StripRight(s: string): (r: string)
    ensures |r| <= |s| && r == s[..|r|]
    ensures r == [] || !IsSpace(r[|r| - 1])
  {
    if |s| > 0 && IsSpace(s[|s| - 1]) then StripRight(s[..|s| - 1]) else s
  }

  /** `s.strip()`: no whitespace is left at either end. */
  function Strip(s: string): (r: string)
    ensures |r| <= |s|
    ensures r == [] || (!IsSpace(r[0]) && !IsSpace(r[|r| - 1]))
  {
    var l := StripLeft(s);
    var r := StripRight(l);
    assert r != [] ==> r[0] == l[0];
    r
  }

  /** Only whitespace is removed on the left. */
  lemma {:induction false} StripLeftSpaces(s: string)
    ensures forall i :: 0 <= i < |s| - |StripLeft(s)| ==> IsSpace(s[i])
  {
    if |s| > 0 && IsSpace(s[0]) {
      StripLeftSpaces(s[1..]);
      forall i | 1 <= i < |s| - |StripLeft(s)| ensures IsSpace(s[i]) {
        assert s[i] == s[1..][i - 1];
      }
    }
  }

  /** Only whitespace is removed on the right. */
  lemma {:induction false} StripRightSpaces(s: string)
    ensures forall i :: |StripRight(s)| <= i < |s| ==> IsSpace(s[i])
  {
    if |s| > 0 && IsSpace(s[|s| - 1]) {
      StripRightSpaces(s[..|s| - 1]);
    }
  }

  /**
   * `s.strip()` is the slice of `s` left once the whitespace at both ends is
   * cut: it starts at `k` and everything outside it is whitespace.
   */
  lemma StripSlice(s: string) returns (k: nat)
    ensures k + |Strip(s)| <= |s| && Strip(s) == s[k..k + |Strip(s)|]
    ensures forall i :: 0 <= i < k ==> IsSpace(s[i])
    ensures forall i :: k + |Strip(s)| <= i < |s| ==> IsSpace(s[i])
  {
    StripHalves(s);
    k := StripBothEnds(s, Strip(s));
  }

  /** `strip()` is the right strip of the left strip. */
  lemma StripHalves(s: string)
    ensures Strip(s) == StripRight(StripLeft(s))
  {
  }

  /** `StripSlice` with the result of `strip()` named `r`. */
  lemma StripBothEnds(s: string, r: string) returns (k: nat)
    requires r == StripRight(StripLeft(s))
    ensures k + |r| <= |s| && r == s[k..k + |r|]
    ensures forall i :: 0 <= i < k ==> IsSpace(s[i])
    ensures forall i :: k + |r| <= i < |s| ==> IsSpace(s[i])
  {
    var l := StripLeft(s);
    k := |s| - |l|;
    StripLeftSpaces(s);
    StripRightSpaces(l);
    assert r == l[..|r|];
    SuffixPrefix(s, l, r, k);
  }

  /** A prefix `r` of the suffix `l == s[k..]`, followed in `l` by whitespace only. */
  lemma SuffixPrefix(s: string, l: string, r: string, k: nat)
    requires k <= |s| && l == s[k..] && |r| <= |l| && r == l[..|r|]
    requires forall i :: |r| <= i < |l| ==> IsSpace(l[i])
    ensures k + |r| <= |s| && r == s[k..k + |r|]
    ensures forall i :: k + |r| <= i < |s| ==> IsSpace(s[i])
  {
    forall i | k + |r| <= i < |s| ensures IsSpace(s[i]) {
      assert s[i] == l[i - k];
    }
  }

  /** A string with no whitespace at either end is kept by `strip()`. */
  lemma StripKeeps(s: string)
    requires s == [] || (!IsSpace(s[0]) && !IsSpace(s[|s| - 1]))
    ensures Strip(s) == s
  {
  }

  function LowerChar(c: char): char
  {
    if 'A' <= c <= 'Z' then (c as int + 32) as char else c
  }

  /** `s.lower()` restricted to ASCII letters; every other character is kept. */
  function Lower(s: string): (r: string)
    ensures |r| == |s|
  {
    if |s| == 0 then "" else [LowerChar(s[0])] + Lower(s[1..])
  }

  /**
   * `lower()` leaves no ASCII capital, maps each capital to its small letter
   * and keeps every other character.
   */
  lemma {:induction false} LowerSpec(s: string)
    ensures forall i :: 0 <= i < |s| ==> !('A' <= Lower(s)[i] <= 'Z')
    ensures forall i :: 0 <= i < |s| && 'A' <= s[i] <= 'Z' ==> Lower(s)[i] as int == s[i] as int + 32
    ensures forall i :: 0 <= i < |s| && !('A' <= s[i] <= 'Z') ==> Lower(s)[i] == s[i]
  {
    if |s| > 0 {
      LowerSpec(s[1..]);
      forall i | 1 <= i < |s| ensures Lower(s)[i] == Lower(s[1..])[i - 1] && s[i] == s[1..][i - 1] {
      }
    }
  }

  /** Lower-casing twice is lower-casing once. */
  lemma LowerIdempotent(s: string)
    ensures Lower(Lower(s)) == Lower(s)
  {
    LowerSpec(s);
    LowerSpec(Lower(s));
  }

  // ---------------------------------------------------------------------------
  // decimal integers: int(...) and f"{n:04d}"
  // ---------------------------------------------------------------------------

  predicate IsDigit(c: char) { '0' <= c <= '9' }

  predicate AllDigits(s: string) { forall i :: 0 <= i < |s| ==> IsDigit(s[i]) }

  function DigitChar(d: nat): (c: char)
    requires d < 10
    ensures IsDigit(c) && c as int - '0' as int == d
  {
    ('0' as int + d) as char
  }

  /** The number a string of decimal digits denotes (leading zeros allowed). */
  function Value(ds: string): nat
    requires AllDigits(ds)
  {
    if |ds| == 0 then 0
    else Value(ds[..|ds| - 1]) * 10 + (ds[|ds| - 1] as int - '0' as int)
  }

  /** The decimal digits of `n`, without leading zeros. */
  function Digits(n: nat): (ds: string)
    ensures |ds| >= 1 && AllDigits(ds)
    ensures n > 0 ==> ds[0] != '0'
    ensures n < 10 ==> |ds| == 1
  {
    if n < 10 then [DigitChar(n)] else Digits(n / 10) + [DigitChar(n % 10)]
  }

  function Zeros(k: nat): (z: string)
    ensures |z| == k && AllDigits(z)
  {
    if k == 0 then "" else Zeros(k - 1) + "0"
  }

  /** Left-pad with zeros to width `w` (the `0` flag of a format spec). */
  function PadZeros(ds: string, w: nat): (r: string)
    requires AllDigits(ds)
    ensures AllDigits(r) && |r| >= w && |r| >= |ds|
  {
    if |ds| >= w then ds else Zeros(w - |ds|) + ds
  }

  /**
   * Python's `f"{n:04d}"`: width 4, zero padded after the sign, so that a
   * nonnegative number gets at least four digits and a negative one a minus
   * sign and at least three digits.
   */
  function Format(n: int): (r: string)
    ensures |r| >= 4
    ensures n >= 0 ==> AllDigits(r)
    ensures n < 0 ==> r[0] == '-' && AllDigits(r[1..])
    ensures n >= 0 && |r| > 4 ==> r[0] != '0'
    ensures n < 0 && |r| > 4 ==> r[1] != '0'
    ensures '_' !in r
  {
    var r := if n >= 0 then PadZeros(Digits(n), 4) else "-" + PadZeros(Digits(-n), 3);
    assert forall i :: 0 <= i < |r| ==> r[i] == '-' || IsDigit(r[i]);
    r
  }

  /**
   * U+001C to U+001F. `str.isspace()` accepts them, but `int()` does not skip
   * them: it turns only non-ASCII whitespace into spaces and then skips ASCII
   * whitespace (TAB to CR and SPACE).
   */
  predicate IsInfoSeparator(c: char)
  {
    '\U{1C}' <= c <= '\U{1F}'
  }

  /**
   * Python's `int(s)` in base 10: surrounding whitespace is ignored, then an
   * optional sign and one or more digits. An information separator is never
   * skipped, and since it is neither a digit nor a sign, one anywhere in `s`
   * makes `int()` fail; every other character `IsSpace` accepts is skipped
   * at either end. (The underscores Python allows between digits never reach
   * this function: it is applied to the parts of a split on `_`.)
   */
  function ParseInt(s: string): Option<int>
  {
    if exists i :: 0 <= i < |s| && IsInfoSeparator(s[i]) then None
    else ParseTrimmed(Strip(s))
  }

  /** An optional sign and one or more digits, with nothing around them. */
  function ParseTrimmed(t: string): Option<int>
  {
    if |t| >= 2 && (t[0] == '-' || t[0] == '+') && AllDigits(t[1..]) then
      var magnitude: int := Value(t[1..]);
      Some(if t[0] == '-' then -magnitude else magnitude)
    else if |t| >= 1 && AllDigits(t) then Some(Value(t))
    else None
  }

  lemma {:induction false} ValueDigits(n: nat)
    ensures Value(Digits(n)) == n
  {
    if n >= 10 {
      var ds := Digits(n);
      assert ds[..|ds| - 1] == Digits(n / 10);
      ValueDigits(n / 10);
    }
  }

  lemma {:induction false} ValueZeros(k: nat)
    ensures Value(Zeros(k)) == 0
  {
    if k > 0 {
      assert Zeros(k)[..k - 1] == Zeros(k - 1);
      ValueZeros(k - 1);
    }
  }

  lemma {:induction false} ValueLeadingZeros(k: nat, ds: string)
    requires AllDigits(ds)
    ensures Value(Zeros(k) + ds) == Value(ds)
  {
    if |ds| == 0 {
      assert Zeros(k) + ds == Zeros(k);
      ValueZeros(k);
    } else {
      var s := Zeros(k) + ds;
      assert s[..|s| - 1] == Zeros(k) + ds[..|ds| - 1];
      ValueLeadingZeros(k, ds[..|ds| - 1]);
    }
  }

  lemma ValuePadZeros(n: nat, w: nat)
    ensures Value(PadZeros(Digits(n), w)) == n
  {
    ValueDigits(n);
    if |Digits(n)| < w {
      ValueLeadingZeros(w - |Digits(n)|, Digits(n));
    }
  }

  lemma DigitNotSpace(c: char)
    requires IsDigit(c) || c == '-' || c == '+'
    ensures !IsSpace(c)
  {
  }

  lemma ParseDigits(t: string)
    requires |t| >= 1 && AllDigits(t)
    ensures ParseInt(t) == Some(Value(t))
  {
    DigitNotSpace(t[0]);
    DigitNotSpace(t[|t| - 1]);
    ParseNumeral(t);
  }

  /** A string without information separators or whitespace at its ends is read as it stands. */
  lemma ParseNumeral(t: string)
    requires |t| >= 1 && !IsSpace(t[0]) && !IsSpace(t[|t| - 1])
    requires forall i :: 0 <= i < |t| ==> !IsInfoSeparator(t[i])
    ensures ParseInt(t) == ParseTrimmed(t)
  {
    StripKeeps(t);
    ParseSkipsSpace(t);
  }

  /** A sign followed by digits holds no information separator. */
  lemma SignedNoInfoSeparator(t: string)
    requires |t| >= 1 && (t[0] == '-' || t[0] == '+') && AllDigits(t[1..])
    ensures forall i :: 0 <= i < |t| ==> !IsInfoSeparator(t[i])
  {
    forall i | 1 <= i < |t| ensures !IsInfoSeparator(t[i]) {
      assert t[i] == t[1..][i - 1];
    }
  }

  lemma ParseNegative(t: string, v: int)
    requires |t| >= 2 && t[0] == '-' && AllDigits(t[1..]) && Value(t[1..]) == v
    ensures ParseInt(t) == Some(-v)
  {
    assert t[|t| - 1] == t[1..][|t| - 2];
    DigitNotSpace(t[0]);
    DigitNotSpace(t[|t| - 1]);
    SignedNoInfoSeparator(t);
    ParseNumeral(t);
  }

  lemma ParsePositive(t: string, v: int)
    requires |t| >= 2 && t[0] == '+' && AllDigits(t[1..]) && Value(t[1..]) == v
    ensures ParseInt(t) == Some(v)
  {
    assert t[|t| - 1] == t[1..][|t| - 2];
    DigitNotSpace(t[0]);
    DigitNotSpace(t[|t| - 1]);
    SignedNoInfoSeparator(t);
    ParseNumeral(t);
  }

  /** Without information separators, `int()` ignores whitespace around the number. */
  lemma ParseStrip(s: string)
    requires forall i :: 0 <= i < |s| ==> !IsInfoSeparator(s[i])
    ensures ParseInt(s) == ParseInt(Strip(s))
  {
    StripKeepsNoInfoSeparator(s);
    StripKeeps(Strip(s));
    ParseSkipsSpace(s);
    ParseSkipsSpace(Strip(s));
  }

  /** `strip()` of a string without information separators has none either. */
  lemma StripKeepsNoInfoSeparator(s: string)
    requires forall i :: 0 <= i < |s| ==> !IsInfoSeparator(s[i])
    ensures forall i :: 0 <= i < |Strip(s)| ==> !IsInfoSeparator(Strip(s)[i])
  {
    var k := StripSlice(s);
    var t := Strip(s);
    assert forall i :: 0 <= i < |t| ==> t[i] == s[k + i];
  }

  /** Without information separators, `int()` reads the stripped string. */
  lemma ParseSkipsSpace(s: string)
    requires forall i :: 0 <= i < |s| ==> !IsInfoSeparator(s[i])
    ensures ParseInt(s) == ParseTrimmed(Strip(s))
  {
  }

  /** `int()` rejects a string holding an information separator, wherever it is. */
  lemma ParseRejectsInfoSeparator(s: string, k: nat)
    requires k < |s| && IsInfoSeparator(s[k])
    ensures ParseInt(s).None?
  {
  }

  /** `int()` rejects a string that is empty or all whitespace. */
  lemma ParseBlank(s: string)
    requires forall i :: 0 <= i < |s| ==> IsSpace(s[i])
    ensures ParseInt(s).None?
  {
    StripLeftBlank(s);
    assert Strip(s) == StripRight([]) == [];
  }

  /** Stripping a string of whitespace only leaves nothing. */
  lemma {:induction false} StripLeftBlank(s: string)
    requires forall i :: 0 <= i < |s| ==> IsSpace(s[i])
    ensures StripLeft(s) == []
  {
    if |s| > 0 {
      assert forall i :: 0 <= i < |s[1..]| ==> s[1..][i] == s[i + 1];
      StripLeftBlank(s[1..]);
    }
  }

  /** `int()` rejects a string holding a character other than a digit, a sign or whitespace. */
  lemma ParseRejects(s: string, k: nat)
    requires k < |s| && !IsDigit(s[k]) && !IsSpace(s[k]) && s[k] != '-' && s[k] != '+'
    ensures ParseInt(s).None?
  {
    if forall m :: 0 <= m < |s| ==> !IsInfoSeparator(s[m]) {
      var j := StripPosition(s, k, k);
      TrimmedRejects(Strip(s), k - j);
      RejectedWhenTrimmedIs(s, Strip(s));
    }
  }

  /** `int()` rejects a sign that follows a character other than whitespace. */
  lemma ParseRejectsInnerSign(s: string, i: nat, k: nat)
    requires i < k < |s| && !IsSpace(s[i]) && (s[k] == '-' || s[k] == '+')
    ensures ParseInt(s).None?
  {
    if forall m :: 0 <= m < |s| ==> !IsInfoSeparator(s[m]) {
      var j := StripPosition(s, i, k);
      var t := Strip(s);
      TrimmedRejectsSign(t, k - j);
      RejectedWhenTrimmedIs(s, t);
    }
  }

  /** Without information separators, `int()` fails where the stripped numeral is invalid. */
  lemma RejectedWhenTrimmedIs(s: string, t: string)
    requires forall m :: 0 <= m < |s| ==> !IsInfoSeparator(s[m])
    requires t == Strip(s) && ParseTrimmed(t).None?
    ensures ParseInt(s).None?
  {
    ParseSkipsSpace(s);
  }

  /** Characters other than whitespace, and all between them, are kept by `strip()`, shifted by `j`. */
  lemma StripPosition(s: string, i: nat, k: nat) returns (j: nat)
    requires i <= k < |s| && !IsSpace(s[i]) && !IsSpace(s[k])
    ensures j <= i && k < j + |Strip(s)| && Strip(s)[k - j] == s[k]
  {
    j := StripSlice(s);
  }

  /** A sign after the first character makes the numeral invalid. */
  lemma TrimmedRejectsSign(t: string, m: nat)
    requires 0 < m < |t| && (t[m] == '-' || t[m] == '+')
    ensures ParseTrimmed(t).None?
  {
    TrimmedRejects(t, m);
  }

  /** A character that is not a digit, and not a leading sign, makes the numeral invalid. */
  lemma TrimmedRejects(t: string, m: nat)
    requires m < |t| && !IsDigit(t[m]) && (m == 0 ==> t[m] != '-' && t[m] != '+')
    ensures ParseTrimmed(t).None?
  {
    if m > 0 {
      assert t[1..][m - 1] == t[m];
    }
  }

  lemma FormatNonNegative(n: nat)
    ensures ParseInt(Format(n)) == Some(n)
  {
    var r := PadZeros(Digits(n), 4);
    ValuePadZeros(n, 4);
    ParseDigits(r);
    assert Format(n) == r;
  }

  lemma FormatNegativeDigits(n: int)
    requires n < 0
    ensures Format(n)[1..] == PadZeros(Digits(-n), 3)
  {
    var ds := PadZeros(Digits(-n), 3);
    assert ("-" + ds)[1..] == ds;
  }

  lemma FormatNegative(n: int)
    requires n < 0
    ensures ParseInt(Format(n)) == Some(n)
  {
    FormatNegativeDigits(n);
    ValuePadZeros(-n, 3);
    ParseNegative(Format(n), -n);
  }

  /** Reading back a formatted number gives the number: `int(f"{n:04d}") == n`. */
  lemma FormatRoundTrip(n: int)
    ensures ParseInt(Format(n)) == Some(n)
  {
    if n >= 0 {
      FormatNonNegative(n);
    } else {
      FormatNegative(n);
    }
  }

  /** Distinct numbers have distinct formats. */
  lemma FormatInjective(a: int, b: int)
    requires Format(a) == Format(b)
    ensures a == b
  {
    FormatRoundTrip(a);
    FormatRoundTrip(b);
  }
}
